=== FILE: README.md ===
# tasks-service resolvers: a Dafny model

This project models the decision and transformation logic of the GraphQL
resolvers of the task-orchestration service:

- the **batch start** mutation `StartTasks`. It skips ids the dedup gate reports as
  already processing and ids whose task lookup fails. It stages one
  `RPush` of the task's id onto `"queue:" + site` and one start-time update per surviving task,
  all stamped with one shared time. It then fails as a whole on a pipeline
  error, or appends to the per-site queues;
- the **update translator** `convertUpdate` and the parse-or-drop step
  `processUpdate` of the update stream;
- the **query and subscription resolvers**: command publication
  (`SendCommand`), the scheduled-task conversion (`GetScheduledTasks`), the
  running-task intersection (`GetRunningTasks`) and the channel naming of
  `TaskUpdates`;
- the **helpers**: `contextExtract` (the stored error, then the caller id, then
  `user_not_found`) and the fail-open dedup gate `isBeingProcessed`.

Every I/O result is a parameter. Redis, Postgres and the scheduler RPC
appear only through the replies they give:
- `ProcessingSet` holds the members of `tasks:processing` and the transient
  errors of membership queries;
- a `map` from requested id to `TaskRecord` is the task lookup;
- `Option<Error>` is the pipeline or publish reply;
- the scheduler and the caller's-tasks lookup are `Result`-valued
  function parameters;
- the SHA-1 `hash` is a function parameter;
- the protobuf `STATUS_name` table is a `map<int, string>`;
- JSON decoding is a `parse` function returning `Malformed`, `Null` or
  `Decoded(wire)`;
- the wall-clock time of `StartTasks` is an `int` parameter.

Files: `wrappers.dfy` (Option, Result), `domain.dfy` (errors, context,
records), `helpers.dfy`, `update_handler.dfy`, `batch_start.dfy`,
`resolvers.dfy`.

## Model

| member | source | states |
|---|---|---|
| Helpers.ContextExtract | resolvers/helpers.go:15-26 | exactly one of (id, error) is present; a stored error is returned even when a caller id is also present; with no error and an id, the id comes back with no error; with neither, the error is `user_not_found` |
| Helpers.IsBeingProcessed | resolvers/helpers.go:28-33 | true exactly when the membership query succeeded and reported membership; a query error yields false (fail-open); true only for real members of the processing set |
| UpdateHandler.ConvertUpdate | resolvers/updateHandler.go:45-61 | the output information never holds `taskID` or `stoppedFromCMD`; its keys are exactly the input keys minus those two, each with the identical value; `TaskID` is the input's `taskID` entry or "" when absent; `Status` is the label of the code or "" for an unknown code; `Error` is copied |
| UpdateHandler.RedactionRoundTrip | resolvers/updateHandler.go:53-58 | adding the two reserved entries back to the output information gives the input information map: translation drops those two entries and nothing else |
| UpdateHandler.TranslationExample | resolvers/updateHandler.go:45-61 | `{status 2, taskID t9, stoppedFromCMD true, proxy 1.2.3.4}` translates to task `t9`, the label of code 2, and information `{proxy: 1.2.3.4}` only |
| UpdateHandler.ProcessUpdateAsWritten | resolvers/updateHandler.go:34-43 | as written: a decode error emits nothing; a decoded message emits its translation; a payload decoding to a nil pointer panics |
| UpdateHandler.NullPayloadPanics | resolvers/updateHandler.go:35-42 | the payload `null` makes the as-written step panic |
| UpdateHandler.ProcessUpdate | resolvers/updateHandler.go:34-43 | a payload that does not decode to a message emits nothing; one that does emits exactly one update, its translation |
| UpdateHandler.ProcessUpdateAgreesExceptNull | resolvers/updateHandler.go:37-42 | the corrected step and the as-written one agree on every payload except one decoding to nil, which the corrected step drops |
| BatchStart.QueueName | resolvers/schema.resolvers.go:72 | a site's queue is `"queue:"` followed by the site |
| BatchStart.QueueNameInjective | resolvers/schema.resolvers.go:72 | two distinct sites never share a queue |
| BatchStart.Admit | resolvers/schema.resolvers.go:48-66 | an id whose membership query succeeds and finds it processing is skipped; so is an id whose lookup fails; an id whose membership query errs is admitted if found (fail-open); an admitted id yields the looked-up task |
| BatchStart.Survivors | resolvers/schema.resolvers.go:48-73 | the admitted tasks are exactly the lookups of the admitted requested ids, and there are never more of them than requested ids |
| BatchStart.PlanStart | resolvers/schema.resolvers.go:43-73 | the loop stages as many pushes as updates, exactly one of each per admitted task |
| BatchStart.PlanStartShape | resolvers/schema.resolvers.go:43-73 | the i-th push goes onto `"queue:" + site` of the i-th admitted task, in request order, and carries the task's id; the i-th update targets that same id and carries the single shared start time |
| BatchStart.ApplyPushes | resolvers/schema.resolvers.go:72-75 | executing the pushes appends, per queue and in push order, exactly the values pushed to it, creating absent lists; every queue no push targets is unchanged |
| BatchStart.StartTasks | resolvers/schema.resolvers.go:34-91 | a failed caller check returns `(false, err)` with no push and no deferred update; when something was staged, a pipeline failure returns `(false, err)` and leaves the queues as they were; when nothing was staged the call succeeds whatever a round trip would have answered; otherwise `(true, nil)`, the queues after the planned pushes, and the planned updates handed to the background writer; the processing set and the tasks are never changed |
| BatchStart.SurvivorsConcat | resolvers/schema.resolvers.go:48-73 | filtering distributes over concatenation of the requested ids, so each id is judged on its own and order is kept |
| BatchStart.PlanConcat | resolvers/schema.resolvers.go:48-73 | the staged plan of `a + b` is the plan of `a` followed by the plan of `b`, pushes and updates alike |
| BatchStart.SingleIdPlan | resolvers/schema.resolvers.go:63-72 | a single skipped id stages nothing; a single admitted id stages one push onto its site queue and one update at the shared time |
| BatchStart.SkippedIdChangesNothing | resolvers/schema.resolvers.go:48-66 | an id reported as processing, or whose lookup fails, leaves the plan and the whole outcome as if it had not been requested, so it never makes the call fail |
| BatchStart.AdmittedIdStagedOnce | resolvers/schema.resolvers.go:69-72 | an admitted id gets exactly one push and one update, between those of the ids before and after it |
| BatchStart.DuplicatesNotCollapsed | resolvers/schema.resolvers.go:48-52 | an admitted id requested twice in one call is pushed twice: the processing set is only read |
| BatchStart.PushCount | resolvers/schema.resolvers.go:48-73 | with every membership query answering and every task found, N ids of which M are processing give exactly N - M pushes and N - M updates |
| BatchStart.SiteQueueReceives | resolvers/schema.resolvers.go:72 | the pushes sent to a site's queue are exactly the ids of the admitted tasks of that site, in request order |
| BatchStart.SiteQueueAfterStart | resolvers/schema.resolvers.go:72-77 | after a successful call a site's queue holds its old entries followed by that site's admitted ids, in order; it exists afterwards exactly when it existed before or received something |
| BatchStart.PushedIdsWereRequested | resolvers/schema.resolvers.go:54-72 | when the lookup returns each task under its own id, only requested ids are pushed |
| BatchStart.ProcessedIdsStageNothing | resolvers/schema.resolvers.go:48-52 | once every requested id a call admitted is in the processing set (which has not lost members) and the queries answer, a call with the same ids stages nothing |
| BatchStart.SecondCallStagesNothing | resolvers/schema.resolvers.go:48-73 | when every task is stored under its own id, once a worker has added every pushed task id to the processing set (which has not lost members) and the queries answer, repeating the call with the same ids stages nothing (idempotence under dedup) |
| BatchStart.RequestedIdNotTaskIdRequeues | resolvers/schema.resolvers.go:48-73 | the gate tests the requested string and the queue carries the task's id: a task requested as `T1` whose id is `t1` is pushed again by a second call although `t1` is processing |
| BatchStart.PlanExample | resolvers/schema.resolvers.go:48-73 | with `t1` processing, `["t1", "t2"]` stages only a push of `t2` onto `queue:siteB` and one update of `t2` at the shared time |
| BatchStart.StartExample | resolvers/schema.resolvers.go:34-91 | with `t1` processing, `["t1", "t2"]` pushes only `t2` onto its site's queue, stages one update at the shared time, and succeeds |
| Resolvers.SendCommand | resolvers/schema.resolvers.go:21-32 | a failed caller check returns the error and publishes nothing; otherwise the command is published on the control-token channel and the publish reply decides `(true, nil)` or `(false, err)` |
| Resolvers.ConvertScheduled | resolvers/schema.resolvers.go:107-117 | the conversion keeps length and order and copies id, subscription token, control token and start time of each entry |
| Resolvers.ConvertScheduledLossless | resolvers/schema.resolvers.go:110-117 | reading the converted tasks back gives the scheduler's list unchanged |
| Resolvers.GetScheduledTasks | resolvers/schema.resolvers.go:93-120 | a failed caller check returns its error; the scheduler is asked for the caller's id; any scheduler error becomes `internal_error`; otherwise the converted list with no error |
| Resolvers.LastUpdateKey | resolvers/schema.resolvers.go:150 | a task's last status is read from `"tasks:updates:last-update:"` followed by its id, and the id can be read back from the key |
| Resolvers.MatchesOf | resolvers/schema.resolvers.go:143-152 | for one processing id, the inner loop gives as many reports as the caller has tasks carrying that id, duplicates included |
| Resolvers.MatchesOfExact | resolvers/schema.resolvers.go:143-152 | the inner loop reports, for a processing id, one task per caller task carrying that id, and reports something exactly when the caller owns the id |
| Resolvers.RunningTasks | resolvers/schema.resolvers.go:142-153 | the nested loops give one report per (processing id, caller task) pair with equal ids: the count is the sum over the processing-set reply, repeats included, of the caller's tasks carrying each id |
| Resolvers.RunningTasksExact | resolvers/schema.resolvers.go:142-154 | an id is reported exactly when it is both in the processing-set reply and among the caller's tasks |
| Resolvers.RunningTasksReports | resolvers/schema.resolvers.go:142-154 | each report is for an id of the processing-set reply owned by the caller. It carries subscription token = id, control token = hash(id), the last status published for the id, and that task's start time |
| Resolvers.RunningTasksConcat | resolvers/schema.resolvers.go:142-153 | reports follow the order of the processing-set reply |
| Resolvers.RunningTasksAsWritten | resolvers/schema.resolvers.go:142-154 | as written, the loops panic exactly when some processing id is owned by a caller task without a start time; otherwise they give the corrected result |
| Resolvers.UnstartedRunningTaskPanics | resolvers/schema.resolvers.go:149 | a processing task whose start time is not yet written panics the as-written loops; the corrected loops report it with no start time |
| Resolvers.GetRunningTasks | resolvers/schema.resolvers.go:122-157 | a failed caller check returns its error; a store error while loading the caller or their app is returned wrapped by `EntErr`; otherwise the running tasks with no error |
| Resolvers.ChannelName | resolvers/schema.resolvers.go:166 | a token's channel is `"tasks:updates:"` followed by the token, which can be read back from it |
| Resolvers.ChannelNames | resolvers/schema.resolvers.go:163-167 | one channel name per token, in token order, each `"tasks:updates:" + token` |
| Resolvers.ChannelNameRoundTrip | resolvers/schema.resolvers.go:166 | the token can be read back from its channel name |
| Resolvers.ChannelNamesInjective | resolvers/schema.resolvers.go:165-167 | different token lists never subscribe to the same channel list |
| Resolvers.TaskUpdates | resolvers/schema.resolvers.go:159-176 | the subscription covers one channel per token, in order: channel i is `tasks:updates:` followed by token i, and token i can be read back from it; the caller is not checked |
| Resolvers.CallerCheckShortCircuits | resolvers/schema.resolvers.go:21-38 | when caller extraction fails, SendCommand and StartTasks return `(false, err)` with no effect, and GetScheduledTasks and GetRunningTasks (lines 95-98, 123-126) return the error with an empty list, whatever the collaborators would answer |

## Findings

| source | as written | input that shows it | evidently intended | confidence | as-written member | corrected member |
|---|---|---|---|---|---|---|
| resolvers/updateHandler.go:35-42 | the payload is decoded into a `*module.Status`. The JSON literal `null` decodes without error into a nil pointer, which `convertUpdate` then dereferences inside a bare goroutine | a message whose payload is `null` | drop it like any other payload that is not a status message | medium; not executed | UpdateHandler.NullPayloadPanics | UpdateHandler.ProcessUpdate |
| resolvers/schema.resolvers.go:149 | `*task.StartTime` is dereferenced for every processing task of the caller. `StartTasks` writes the start time only five seconds after queueing, so it is still nil in that window | a task in `tasks:processing` whose start time is null | report the task without a start time | medium; not executed | Resolvers.UnstartedRunningTaskPanics | Resolvers.GetRunningTasks |

## Left out

- The `handleUpdates` select loop is not modelled. This covers subscription teardown, closing the output channel and the goroutine per message. Its point is concurrency and it promises no ordering. Only the per-message step `processUpdate` is modelled.
- The detached goroutine of `StartTasks` is not modelled: the five-second sleep, then one `Save` per staged update, with errors only logged. The model hands over the staged update list (`Outcome.deferred`).
- Logging is not modelled. This includes the extra dedup query made inside the log statement of the `StartTasks` loop: the model queries once per id and assumes both queries give the same reply.
- The Redis, ent and gRPC calls are not modelled as operations. They appear only as their replies: the membership reply, the lookup map, the pipeline and publish replies, the scheduler and caller's-tasks lookups, the `SMembers` reply (empty when that query fails) and the last-update scalars.
- JSON decoding is not modelled. It is the abstract `parse` parameter.
- The SHA-1 control token is not modelled. It is the abstract `hash` parameter.
- The protobuf `STATUS_name` table is not modelled. It is the `labels` map.
- BatchStart.StartTasks: the pipeline is not a Redis transaction. A pipeline that reports an error may still have applied some pushes; the model leaves the queues unchanged on a pipeline error.
- BatchStart.StartTasks: the behaviour of an empty pipeline is taken from the go-redis client, which returns no error without a round trip when nothing was queued. That client is not part of this model.
- BatchStart.SecondCallStagesNothing: the dedup gate keys on the requested string while workers can only mark the pushed task id, so idempotence holds only when the requested ids are the tasks' own ids (`RequestedIdNotTaskIdRequeues` shows a requested id that differs being queued again).
- BatchStart.Store: a lookup of a task without products panics on `Product[0]`. The model's task record carries the site of the first product, so that case is excluded rather than modelled. The conversion of the requested string by `UUIDParser` is folded into the lookup map.
- Helpers.ContextExtract: the caller id is taken as a string. `fmt.Sprint` of a non-string value is not modelled. Neither is the panic of the `err.(error)` assertion on a stored value that is not an error.
- Resolvers.GetRunningTasks: the panic of `AllX` on a store error while loading the caller's tasks is not modelled. The two `EntErr` paths (loading the caller, loading their app) are merged into one error-returning lookup. The statuses are the stored strings, cast to `model.Status` unchecked.
- Resolvers.GetScheduledTasks: `time.Unix(s, 0)` is modelled as the seconds value itself.
- The server bootstrap and dependency injection (`server.go`, `resolvers/resolver.go`) are not part of this model. They are configuration and I/O.

=== FILE: batch_start.dfy ===
/** The StartTasks mutation: filter the requested ids through the dedup gate
    and the task lookup, stage one queue push and one start-time update per
    surviving task, and apply the pushes when the pipeline succeeds. */
module BatchStart {
  import opened Wrappers
  import opened Domain
  import opened Helpers

  /** The per-site work queues: list key to its entries, oldest first. */
  type Queues = map<string, seq<string>>

  const QueuePrefix: string := "queue:"

  /** The list a task of `site` is pushed onto. */
  function QueueName(site: string): (q: string)
    ensures |q| == |QueuePrefix| + |site| && q[|QueuePrefix|..] == site
  {
    QueuePrefix + site
  }

  /** Distinct sites never share a queue. */
  lemma QueueNameInjective(a: string, b: string)
    ensures QueueName(a) == QueueName(b) ==> a == b
  {
  }

  /** One `RPush(queue, value)` staged on the pipeline. */
  datatype Push = RPush(queue: string, value: string)

  /** One update builder `task.Update().SetStartTime(startTime)`. */
  datatype StagedUpdate = SetStartTime(taskID: string, startTime: int)

  /** What one call stages: the pipeline's pushes and the deferred updates. */
  datatype Plan = Plan(pushes: seq<Push>, updates: seq<StagedUpdate>)

  /** The state StartTasks reads and writes: the processing set (read only),
      the task lookup by requested id (an absent id is a failed query), and
      the queues. */
  datatype Store = Store(processing: ProcessingSet, tasks: map<string, TaskRecord>, queues: Queues)

  /** The task a requested id contributes, or None when the loop skips it. */
  function Admit(store: Store, id: string): (r: Option<TaskRecord>)
    ensures r.Some? ==> id in store.tasks && r.value == store.tasks[id]
    ensures r.Some? ==> id !in store.processing.members || id in store.processing.faults
    ensures id in store.processing.members && id !in store.processing.faults ==> r.None?
    ensures id !in store.tasks ==> r.None?
    ensures id in store.tasks && id !in store.processing.members ==> r == Some(store.tasks[id])
    ensures id in store.tasks && id in store.processing.faults ==> r == Some(store.tasks[id])
  {
    if IsBeingProcessed(store.processing, id) then None
    else if id in store.tasks then Some(store.tasks[id])
    else None
  }

  /** The reference filter: the admitted tasks of `ids`, in input order. */
  function Survivors(store: Store, ids: seq<string>): (r: seq<TaskRecord>)
    ensures |r| <= |ids|
    ensures forall t :: t in r <==> exists id :: id in ids && Admit(store, id) == Some(t)
    decreases |ids|
  {
    if |ids| == 0 then []
    else
      var init := ids[..|ids| - 1];
      var last := ids[|ids| - 1];
      assert ids == init + [last];
      match Admit(store, last)
      case None => Survivors(store, init)
      case Some(t) => Survivors(store, init) + [t]
  }

  /** The loop of StartTasks over the requested ids: one push onto the
      task's site queue and one start-time update, all carrying the single
      time `now` captured before the loop, per admitted id. */
  function PlanStart(store: Store, ids: seq<string>, now: int): (p: Plan)
    ensures |p.pushes| == |p.updates| == |Survivors(store, ids)|
    decreases |ids|
  {
    if |ids| == 0 then Plan([], [])
    else
      var p := PlanStart(store, ids[..|ids| - 1], now);
      match Admit(store, ids[|ids| - 1])
      case None => p
      case Some(t) => Plan(p.pushes + [RPush(QueueName(t.site), t.id)], p.updates + [SetStartTime(t.id, now)])
  }

  /** The plan against the reference filter: the i-th push goes onto the
      i-th survivor's site queue carrying its id, and the i-th update stamps
      that same id with `now`. */
  lemma {:induction false} PlanStartShape(store: Store, ids: seq<string>, now: int)
    ensures forall i :: 0 <= i < |PlanStart(store, ids, now).pushes| ==>
              PlanStart(store, ids, now).pushes[i]
              == RPush(QueueName(Survivors(store, ids)[i].site), Survivors(store, ids)[i].id)
    ensures forall i :: 0 <= i < |PlanStart(store, ids, now).updates| ==>
              PlanStart(store, ids, now).updates[i] == SetStartTime(PlanStart(store, ids, now).pushes[i].value, now)
    decreases |ids|
  {
    if |ids| > 0 {
      var init := ids[..|ids| - 1];
      PlanStartShape(store, init, now);
      var p, sv := PlanStart(store, init, now), Survivors(store, init);
      assert ids == init + [ids[|ids| - 1]];
      match Admit(store, ids[|ids| - 1])
      case None =>
        assert Survivors(store, ids) == sv;
        assert PlanStart(store, ids, now) == p;
      case Some(t) =>
        assert Survivors(store, ids) == sv + [t];
        assert PlanStart(store, ids, now)
            == Plan(p.pushes + [RPush(QueueName(t.site), t.id)], p.updates + [SetStartTime(t.id, now)]);
    }
  }

  /** The entries of queue `name` before any push: an absent list reads as empty. */
  function Contents(qs: Queues, name: string): seq<string>
  {
    if name in qs then qs[name] else []
  }

  /** The queues some push of `pushes` targets. */
  function Targets(pushes: seq<Push>): set<string>
    decreases |pushes|
  {
    if |pushes| == 0 then {}
    else Targets(pushes[..|pushes| - 1]) + {pushes[|pushes| - 1].queue}
  }

  /** The values `pushes` sends to queue `name`, in push order. */
  function ValuesFor(pushes: seq<Push>, name: string): (r: seq<string>)
    ensures |r| <= |pushes|
    ensures r == [] <==> name !in Targets(pushes)
    decreases |pushes|
  {
    if |pushes| == 0 then []
    else
      var init := ValuesFor(pushes[..|pushes| - 1], name);
      var p := pushes[|pushes| - 1];
      if p.queue == name then init + [p.value] else init
  }

  /** Executes the pipeline's pushes in order. Each push appends to the right
      end of its list, creating the list when absent; a queue no push
      targets is left exactly as it was. */
  function ApplyPushes(qs: Queues, pushes: seq<Push>): (r: Queues)
    ensures forall name :: name in r <==> name in qs || name in Targets(pushes)
    ensures forall name :: name in r ==> r[name] == Contents(qs, name) + ValuesFor(pushes, name)
    ensures forall name :: name in qs && name !in Targets(pushes) ==> r[name] == qs[name]
    decreases |pushes|
  {
    if |pushes| == 0 then qs
    else
      var r := ApplyPushes(qs, pushes[..|pushes| - 1]);
      var p := pushes[|pushes| - 1];
      ApplyLastPush(qs, pushes, r);
      r[p.queue := Contents(r, p.queue) + [p.value]]
  }

  /** The inductive step of ApplyPushes: appending the last push to the
      queues obtained from the others. */
  lemma ApplyLastPush(qs: Queues, pushes: seq<Push>, r: Queues)
    requires |pushes| > 0
    requires forall name :: name in r <==> name in qs || name in Targets(pushes[..|pushes| - 1])
    requires forall name :: name in r ==> r[name] == Contents(qs, name) + ValuesFor(pushes[..|pushes| - 1], name)
    ensures var p := pushes[|pushes| - 1];
            var r' := r[p.queue := Contents(r, p.queue) + [p.value]];
            && (forall name :: name in r' <==> name in qs || name in Targets(pushes))
            && (forall name :: name in r' ==> r'[name] == Contents(qs, name) + ValuesFor(pushes, name))
  {
    var p := pushes[|pushes| - 1];
    var r' := r[p.queue := Contents(r, p.queue) + [p.value]];
    forall name | name in r' ensures r'[name] == Contents(qs, name) + ValuesFor(pushes, name) {
      ApplyLastPushAt(qs, pushes, r, name);
    }
  }

  /** ApplyLastPush for one queue. */
  lemma ApplyLastPushAt(qs: Queues, pushes: seq<Push>, r: Queues, name: string)
    requires |pushes| > 0
    requires name in r <==> name in qs || name in Targets(pushes[..|pushes| - 1])
    requires name in r ==> r[name] == Contents(qs, name) + ValuesFor(pushes[..|pushes| - 1], name)
    ensures var p := pushes[|pushes| - 1];
            var r' := r[p.queue := Contents(r, p.queue) + [p.value]];
            name in r' ==> r'[name] == Contents(qs, name) + ValuesFor(pushes, name)
  {
    var init := pushes[..|pushes| - 1];
    var p := pushes[|pushes| - 1];
    var r' := r[p.queue := Contents(r, p.queue) + [p.value]];
    ValuesForLast(pushes, name);
    var a, b := Contents(qs, name), ValuesFor(init, name);
    if name == p.queue {
      assert ValuesFor(pushes, name) == b + [p.value];
      if name in r {
        assert Contents(r, name) == a + b;
      } else {
        assert a == [] && b == [];
      }
      assert r'[name] == Contents(r, name) + [p.value];
      assert (a + b) + [p.value] == a + (b + [p.value]);
    } else if name in r' {
      assert ValuesFor(pushes, name) == b;
      assert r'[name] == r[name];
    }
  }

  /** Unfolds ValuesFor at the last push. */
  lemma ValuesForLast(pushes: seq<Push>, name: string)
    requires |pushes| > 0
    ensures ValuesFor(pushes, name)
            == ValuesFor(pushes[..|pushes| - 1], name)
               + (if pushes[|pushes| - 1].queue == name then [pushes[|pushes| - 1].value] else [])
  {
  }

  /** What the mutation returns, the store after it, and the updates handed
      to the background writer (which persists them after its delay). */
  datatype Outcome = Outcome(reply: Reply<bool>, store: Store, deferred: seq<StagedUpdate>)

  /** StartTasks: the caller check, the staging loop, and the pipeline
      execution. `exec` is the reply the pipeline round trip would give
      (None on success); an empty pipeline makes no round trip and
      succeeds, so `exec` only matters when something was staged. */
  function StartTasks(ctx: Context, ids: seq<string>, store: Store, now: int, exec: Option<Error>): (r: Outcome)
    ensures r.reply.value <==> r.reply.err.None?
    ensures r.store.processing == store.processing && r.store.tasks == store.tasks
    ensures ContextExtract(ctx).err.Some? ==>
              r.reply.err == ContextExtract(ctx).err && r.store == store && r.deferred == []
    ensures ContextExtract(ctx).err.None? && PlanStart(store, ids, now).pushes != [] ==> r.reply.err == exec
    ensures ContextExtract(ctx).err.None? && PlanStart(store, ids, now).pushes == [] ==> r.reply == Reply(true, None)
    ensures r.reply.err.Some? ==> r.store == store && r.deferred == []
    ensures r.reply.err.None? ==>
              r.store.queues == ApplyPushes(store.queues, PlanStart(store, ids, now).pushes)
              && r.deferred == PlanStart(store, ids, now).updates
  {
    var caller := ContextExtract(ctx);
    if caller.err.Some? then Outcome(Reply(false, caller.err), store, [])
    else
      var plan := PlanStart(store, ids, now);
      if plan.pushes != [] && exec.Some? then Outcome(Reply(false, exec), store, [])
      else Outcome(Reply(true, None), store.(queues := ApplyPushes(store.queues, plan.pushes)), plan.updates)
  }

  /** Filtering distributes over concatenation: each id is judged on its own. */
  lemma {:induction false} SurvivorsConcat(store: Store, a: seq<string>, b: seq<string>)
    ensures Survivors(store, a + b) == Survivors(store, a) + Survivors(store, b)
    decreases |b|
  {
    if |b| == 0 {
      assert a + b == a;
    } else {
      var b' := b[..|b| - 1];
      assert (a + b)[..|a + b| - 1] == a + b';
      assert (a + b)[|a + b| - 1] == b[|b| - 1];
      SurvivorsConcat(store, a, b');
    }
  }

  /** The staging loop distributes over concatenation, pushes and updates alike. */
  lemma {:induction false} PlanConcat(store: Store, a: seq<string>, b: seq<string>, now: int)
    ensures var pa, pb := PlanStart(store, a, now), PlanStart(store, b, now);
            PlanStart(store, a + b, now) == Plan(pa.pushes + pb.pushes, pa.updates + pb.updates)
    decreases |b|
  {
    if |b| == 0 {
      assert a + b == a;
    } else {
      var b' := b[..|b| - 1];
      assert (a + b)[..|a + b| - 1] == a + b';
      assert (a + b)[|a + b| - 1] == b[|b| - 1];
      PlanConcat(store, a, b', now);
      var pa, pb' := PlanStart(store, a, now), PlanStart(store, b', now);
      match Admit(store, b[|b| - 1])
      case None =>
      case Some(t) =>
        assert pa.pushes + (pb'.pushes + [RPush(QueueName(t.site), t.id)])
            == (pa.pushes + pb'.pushes) + [RPush(QueueName(t.site), t.id)];
        assert pa.updates + (pb'.updates + [SetStartTime(t.id, now)])
            == (pa.updates + pb'.updates) + [SetStartTime(t.id, now)];
    }
  }

  /** The plan of a single id: nothing when it is skipped, otherwise one push
      onto its task's site queue and one update at `now`. */
  lemma SingleIdPlan(store: Store, id: string, now: int)
    ensures Admit(store, id).None? ==> PlanStart(store, [id], now) == Plan([], [])
    ensures Admit(store, id).Some? ==>
              var t := Admit(store, id).value;
              PlanStart(store, [id], now) == Plan([RPush(QueueName(t.site), t.id)], [SetStartTime(t.id, now)])
  {
  }

  /** An id the dedup gate reports as processing, or whose task lookup fails,
      leaves the whole call exactly as if it had not been requested: no push,
      no update, and no failure. Every other id keeps its place in order. */
  lemma {:induction false} SkippedIdChangesNothing(
    ctx: Context, a: seq<string>, id: string, b: seq<string>, store: Store, now: int, exec: Option<Error>)
    requires IsBeingProcessed(store.processing, id) || id !in store.tasks
    ensures PlanStart(store, a + [id] + b, now) == PlanStart(store, a + b, now)
    ensures StartTasks(ctx, a + [id] + b, store, now, exec) == StartTasks(ctx, a + b, store, now, exec)
  {
    PlanConcat(store, a + [id], b, now);
    PlanConcat(store, a, [id], now);
    PlanConcat(store, a, b, now);
    SingleIdPlan(store, id, now);
    var pa := PlanStart(store, a, now);
    assert pa.pushes + [] == pa.pushes;
    assert pa.updates + [] == pa.updates;
  }

  /** An admitted id contributes exactly one push and one update, placed
      between those of the ids before it and those after it. */
  lemma {:induction false} AdmittedIdStagedOnce(store: Store, a: seq<string>, id: string, b: seq<string>, now: int)
    requires Admit(store, id).Some?
    ensures var t := Admit(store, id).value;
            var pa, pb := PlanStart(store, a, now), PlanStart(store, b, now);
            PlanStart(store, a + [id] + b, now)
            == Plan(pa.pushes + [RPush(QueueName(t.site), t.id)] + pb.pushes,
                    pa.updates + [SetStartTime(t.id, now)] + pb.updates)
  {
    PlanConcat(store, a + [id], b, now);
    PlanConcat(store, a, [id], now);
    SingleIdPlan(store, id, now);
  }

  /** The processing set is only read, so an id requested twice in one call
      is staged twice. */
  lemma DuplicatesNotCollapsed(store: Store, id: string, now: int)
    requires Admit(store, id).Some?
    ensures var t := Admit(store, id).value;
            PlanStart(store, [id, id], now).pushes == [RPush(QueueName(t.site), t.id), RPush(QueueName(t.site), t.id)]
  {
  }

  /** How many entries of `ids` are members of `s`, counting repeats. */
  function CountIn(ids: seq<string>, s: set<string>): (n: nat)
    ensures n <= |ids|
    decreases |ids|
  {
    if |ids| == 0 then 0
    else CountIn(ids[..|ids| - 1], s) + (if ids[|ids| - 1] in s then 1 else 0)
  }

  /** With every membership query answering and every task found, N requested
      ids of which M are processing yield exactly N - M pushes and N - M updates. */
  lemma {:induction false} PushCount(store: Store, ids: seq<string>, now: int)
    requires forall id :: id in ids ==> id !in store.processing.faults && id in store.tasks
    ensures |PlanStart(store, ids, now).pushes| == |ids| - CountIn(ids, store.processing.members)
    ensures |PlanStart(store, ids, now).updates| == |ids| - CountIn(ids, store.processing.members)
    decreases |ids|
  {
    if |ids| > 0 {
      var init := ids[..|ids| - 1];
      assert forall id :: id in init ==> id in ids;
      PushCount(store, init, now);
    }
  }

  /** The ids, in order, of the tasks in `ts` that belong to `site`. */
  function IdsAt(ts: seq<TaskRecord>, site: string): (r: seq<string>)
    ensures |r| <= |ts|
    ensures forall x :: x in r ==> exists t :: t in ts && t.site == site && t.id == x
    decreases |ts|
  {
    if |ts| == 0 then []
    else
      var init := ts[..|ts| - 1];
      var t := ts[|ts| - 1];
      assert forall u :: u in init ==> u in ts;
      if t.site == site then IdsAt(init, site) + [t.id] else IdsAt(init, site)
  }

  /** The queue of a site receives exactly the ids of the admitted tasks of
      that site, in request order, and nothing else. */
  lemma {:induction false} SiteQueueReceives(store: Store, ids: seq<string>, now: int, site: string)
    ensures ValuesFor(PlanStart(store, ids, now).pushes, QueueName(site)) == IdsAt(Survivors(store, ids), site)
    decreases |ids|
  {
    if |ids| > 0 {
      var init := ids[..|ids| - 1];
      SiteQueueReceives(store, init, now, site);
      var p := PlanStart(store, init, now);
      match Admit(store, ids[|ids| - 1])
      case None =>
      case Some(t) =>
        var ps := p.pushes + [RPush(QueueName(t.site), t.id)];
        assert ps[..|ps| - 1] == p.pushes;
        var s := Survivors(store, init) + [t];
        assert s[..|s| - 1] == Survivors(store, init);
        QueueNameInjective(t.site, site);
    }
  }

  /** After a successful call, the queue of every site holds its old entries
      followed by that site's admitted ids in request order. */
  lemma SiteQueueAfterStart(ctx: Context, ids: seq<string>, store: Store, now: int, site: string)
    requires ContextExtract(ctx).err.None?
    ensures var r := StartTasks(ctx, ids, store, now, None);
            var added := IdsAt(Survivors(store, ids), site);
            (QueueName(site) in r.store.queues <==> QueueName(site) in store.queues || added != [])
            && (QueueName(site) in r.store.queues ==>
                  r.store.queues[QueueName(site)] == Contents(store.queues, QueueName(site)) + added)
  {
    var pushes := PlanStart(store, ids, now).pushes;
    SiteQueueReceives(store, ids, now, site);
    var q := ApplyPushes(store.queues, pushes);
    assert StartTasks(ctx, ids, store, now, None).store.queues == q;
    assert QueueName(site) in q <==> QueueName(site) in store.queues || ValuesFor(pushes, QueueName(site)) != [];
  }

  /** When the lookup returns each task under its own id, only requested ids
      are ever pushed. */
  lemma PushedIdsWereRequested(store: Store, ids: seq<string>, now: int)
    requires forall id :: id in store.tasks ==> store.tasks[id].id == id
    ensures forall p :: p in PlanStart(store, ids, now).pushes ==> p.value in ids
  {
  }

  /** The dedup gate at work: once every id a call admitted is in the
      processing set, and the membership queries answer, a call with the
      same ids stages nothing. */
  lemma {:induction false} ProcessedIdsStageNothing(store: Store, store2: Store, ids: seq<string>, now: int, now2: int)
    requires store.processing.members <= store2.processing.members
    requires store2.tasks == store.tasks
    requires forall id :: id in ids ==> id !in store2.processing.faults
    requires forall id :: id in ids && Admit(store, id).Some? ==> id in store2.processing.members
    ensures PlanStart(store2, ids, now2) == Plan([], [])
    decreases |ids|
  {
    if |ids| > 0 {
      var init := ids[..|ids| - 1];
      var last := ids[|ids| - 1];
      assert last in ids;
      assert forall id :: id in init ==> id in ids;
      ProcessedIdsStageNothing(store, store2, init, now, now2);
      assert Admit(store2, last).None?;
    }
  }

  /** Idempotence under dedup: a worker adds to the processing set the ids
      it dequeued, which are the pushed task ids. When every task is stored
      under its own id and the membership queries answer, a second call with
      the same ids stages nothing once those pushed ids are processing. */
  lemma SecondCallStagesNothing(store: Store, store2: Store, ids: seq<string>, now: int, now2: int)
    requires forall id :: id in store.tasks ==> store.tasks[id].id == id
    requires store.processing.members <= store2.processing.members
    requires store2.tasks == store.tasks
    requires forall id :: id in ids ==> id !in store2.processing.faults
    requires forall p :: p in PlanStart(store, ids, now).pushes ==> p.value in store2.processing.members
    ensures PlanStart(store2, ids, now2) == Plan([], [])
  {
    forall id | id in ids && Admit(store, id).Some?
      ensures id in store2.processing.members
    {
      var k :| 0 <= k < |ids| && ids[k] == id;
      assert ids == ids[..k] + [id] + ids[k + 1..];
      AdmittedIdStagedOnce(store, ids[..k], id, ids[k + 1..], now);
      var t := Admit(store, id).value;
      assert RPush(QueueName(t.site), t.id) in PlanStart(store, ids, now).pushes;
    }
    ProcessedIdsStageNothing(store, store2, ids, now, now2);
  }

  /** The gate tests the requested string, while the worker marks the pushed
      task id. A task looked up as "T1" but carrying the id "t1" is queued
      again by a second call although "t1" is already processing. */
  lemma RequestedIdNotTaskIdRequeues(now: int, now2: int)
    ensures var tasks := map["T1" := TaskRecord("t1", "s", None)];
            var first := Store(ProcessingSet({}, map[]), tasks, map[]);
            var second := Store(ProcessingSet({"t1"}, map[]), tasks, map[]);
            PlanStart(first, ["T1"], now).pushes == [RPush("queue:s", "t1")]
            && PlanStart(second, ["T1"], now2).pushes == [RPush("queue:s", "t1")]
  {
    var tasks := map["T1" := TaskRecord("t1", "s", None)];
    var first := Store(ProcessingSet({}, map[]), tasks, map[]);
    var second := Store(ProcessingSet({"t1"}, map[]), tasks, map[]);
    assert Admit(first, "T1") == Some(TaskRecord("t1", "s", None));
    assert Admit(second, "T1") == Some(TaskRecord("t1", "s", None));
    SingleIdPlan(first, "T1", now);
    SingleIdPlan(second, "T1", now2);
    assert QueueName("s") == "queue:s";
  }

  /** An example store: "t1" is already processing; both
      tasks exist, on different sites; no queue exists yet. */
  function ExampleStore(): Store
  {
    Store(
      ProcessingSet({"t1"}, map[]),
      map["t1" := TaskRecord("t1", "siteA", None), "t2" := TaskRecord("t2", "siteB", None)],
      map[])
  }

  /** In this example only "t2" is staged. */
  lemma PlanExample(now: int)
    ensures PlanStart(ExampleStore(), ["t1", "t2"], now) == Plan([RPush("queue:siteB", "t2")], [SetStartTime("t2", now)])
  {
    var store := ExampleStore();
    assert Admit(store, "t1").None?;
    assert Admit(store, "t2") == Some(TaskRecord("t2", "siteB", None));
    SingleIdPlan(store, "t1", now);
    SingleIdPlan(store, "t2", now);
    PlanConcat(store, ["t1"], ["t2"], now);
    assert ["t1"] + ["t2"] == ["t1", "t2"];
    assert QueueName("siteB") == "queue:siteB";
  }

  /** Pushing "t2" onto an empty store creates its site's queue. */
  lemma ApplyExample()
    ensures ApplyPushes(map[], [RPush("queue:siteB", "t2")]) == map["queue:siteB" := ["t2"]]
  {
    var pushes := [RPush("queue:siteB", "t2")];
    var empty: Queues := map[];
    assert pushes[..0] == [];
    assert ApplyPushes(empty, pushes[..0]) == empty;
    assert Contents(empty, "queue:siteB") == [];
    assert [] + ["t2"] == ["t2"];
  }

  /** In this example "t1" is already processing, so only "t2" is pushed,
      onto its site's queue, with one update, and the call succeeds. */
  lemma StartExample(ctx: Context, now: int)
    requires ContextExtract(ctx).err.None?
    ensures StartTasks(ctx, ["t1", "t2"], ExampleStore(), now, None)
            == Outcome(Reply(true, None), ExampleStore().(queues := map["queue:siteB" := ["t2"]]), [SetStartTime("t2", now)])
  {
    PlanExample(now);
    ApplyExample();
  }

}

=== FILE: domain.dfy ===
/** The values the resolvers exchange with their callers and collaborators. */
module Domain {
  import opened Wrappers

  /** An error as the resolvers return it. Errors handed over by collaborators
      are opaque messages; `Ent` is the wrapping `sonic.EntErr` applies to an
      error of the relational store. */
  datatype Error = Message(text: string) | Ent(cause: Error)

  /** Returned by contextExtract when the context carries no caller at all. */
  const UserNotFound: Error := Message("user_not_found")

  /** Returned by GetScheduledTasks in place of any scheduler error. */
  const InternalError: Error := Message("internal_error")

  /** The request context as the authentication middleware leaves it: an
      error stored under "error" and/or a caller id stored under "userID". */
  datatype Context = Context(error: Option<Error>, userID: Option<string>)

  /** A resolver's Go result pair `(value, error)`; a nil error is `None`. */
  datatype Reply<T> = Reply(value: T, err: Option<Error>)

  /** A task row of the relational store: its id as `task.ID.String()`
      renders it, the site of its first product, and its nullable start time
      (Unix seconds). */
  datatype TaskRecord = TaskRecord(id: string, site: string, startTime: Option<int>)

  /** The GraphQL `Task` object returned by the query resolvers. `startTime`
      is `None` only where the source would dereference a nil pointer. */
  datatype Task = Task(
    id: string,
    subscriptionToken: string,
    controlToken: string,
    startTime: Option<int>,
    status: string)

  /** Go's map index: the stored value, or the zero value "" when absent. */
  function Index<K>(m: map<K, string>, k: K): (v: string)
    ensures k in m ==> v == m[k]
    ensures k !in m ==> v == ""
  {
    if k in m then m[k] else ""
  }
}

=== FILE: helpers.dfy ===
/** The shared helpers of the resolvers: caller extraction from the request
    context and the fail-open "is this task already processing" gate. */
module Helpers {
  import opened Wrappers
  import opened Domain

  /** contextExtract's Go result pair `(*string, error)`. */
  datatype Extracted = Extracted(userID: Option<string>, err: Option<Error>)

  /** Decides between the error the middleware stored, the caller id, and
      "user_not_found". A stored error wins even when a caller id is present. */
  function ContextExtract(ctx: Context): (r: Extracted)
    ensures r.userID.Some? != r.err.Some?
    ensures ctx.error.Some? ==> r.err == ctx.error
    ensures r.err.None? <==> ctx.error.None? && ctx.userID.Some?
    ensures r.userID.Some? ==> r.userID == ctx.userID
    ensures ctx.error.None? && ctx.userID.None? ==> r.err == Some(UserNotFound)
  {
    if ctx.error.Some? then Extracted(None, ctx.error)
    else if ctx.userID.Some? then Extracted(ctx.userID, None)
    else Extracted(None, Some(UserNotFound))
  }

  /** The "tasks:processing" set as membership queries observe it: the ids it
      holds and, per id, the transient error a query for that id runs into. */
  datatype ProcessingSet = ProcessingSet(members: set<string>, faults: map<string, Error>)

  /** The reply of `SIsMember("tasks:processing", id)`. */
  function SIsMember(p: ProcessingSet, id: string): (r: Result<bool, Error>)
    ensures r.Failure? <==> id in p.faults
    ensures r.Success? ==> (r.value <==> id in p.members)
  {
    if id in p.faults then Failure(p.faults[id]) else Success(id in p.members)
  }

  /** The dedup gate. It fails open: a failed query reads as "not processing",
      so the gate never reports a task that is not in the set. */
  function IsBeingProcessed(p: ProcessingSet, id: string): (b: bool)
    ensures b ==> id in p.members
    ensures id in p.faults ==> !b
    ensures id !in p.faults ==> (b <==> id in p.members)
  {
    match SIsMember(p, id)
    case Failure(_) => false
    case Success(isMember) => isMember
  }
}

=== FILE: resolvers.dfy ===
/** The GraphQL resolvers other than StartTasks: SendCommand, GetScheduledTasks,
    GetRunningTasks and TaskUpdates, with their I/O replies as parameters. */
module Resolvers {
  import opened Wrappers
  import opened Domain
  import opened Helpers
  import BatchStart

  // ---------------------------------------------------------------- SendCommand

  /** A command published on the channel named by a control token. */
  datatype Publication = Publication(channel: string, command: string)

  /** The reply of SendCommand and the publication it attempted, if any. */
  datatype SendOutcome = SendOutcome(reply: Reply<bool>, attempted: Option<Publication>)

  /** SendCommand: after the caller check, publishes the command on the
      control-token channel; `publishErr` is the publish reply. */
  function SendCommand(ctx: Context, controlToken: string, command: string, publishErr: Option<Error>): (r: SendOutcome)
    ensures r.reply.value <==> r.reply.err.None?
    ensures ContextExtract(ctx).err.Some? ==> r.reply.err == ContextExtract(ctx).err && r.attempted.None?
    ensures ContextExtract(ctx).err.None? ==>
              r.attempted == Some(Publication(controlToken, command)) && r.reply.err == publishErr
  {
    var caller := ContextExtract(ctx);
    if caller.err.Some? then SendOutcome(Reply(false, caller.err), None)
    else if publishErr.Some? then SendOutcome(Reply(false, publishErr), Some(Publication(controlToken, command)))
    else SendOutcome(Reply(true, None), Some(Publication(controlToken, command)))
  }

  // ---------------------------------------------------------- GetScheduledTasks

  /** A scheduled task as the scheduler service reports it (start time in Unix seconds). */
  datatype ScheduledTask = ScheduledTask(id: string, subscriptionToken: string, controlToken: string, startTime: int)

  /** The conversion loop of GetScheduledTasks, one GraphQL task per entry. */
  function ConvertScheduled(ts: seq<ScheduledTask>): (r: seq<Task>)
    ensures |r| == |ts|
    ensures forall i :: 0 <= i < |ts| ==>
              r[i].id == ts[i].id && r[i].subscriptionToken == ts[i].subscriptionToken
              && r[i].controlToken == ts[i].controlToken && r[i].startTime == Some(ts[i].startTime)
    decreases |ts|
  {
    if |ts| == 0 then []
    else
      var t := ts[|ts| - 1];
      ConvertScheduled(ts[..|ts| - 1]) + [Task(t.id, t.subscriptionToken, t.controlToken, Some(t.startTime), "")]
  }

  /** Reads a converted task back as the scheduler's entry. */
  function AsScheduled(t: Task): ScheduledTask
  {
    ScheduledTask(t.id, t.subscriptionToken, t.controlToken, match t.startTime case Some(s) => s case None => 0)
  }

  /** The conversion loses nothing the scheduler reported, in its order. */
  lemma ConvertScheduledLossless(ts: seq<ScheduledTask>)
    ensures var r := ConvertScheduled(ts); seq(|r|, i requires 0 <= i < |r| => AsScheduled(r[i])) == ts
  {
  }

  /** GetScheduledTasks: after the caller check, asks the scheduler for the
      caller's tasks; any scheduler error becomes "internal_error". */
  function GetScheduledTasks(ctx: Context, scheduler: string -> Result<seq<ScheduledTask>, Error>): (r: Reply<seq<Task>>)
    ensures ContextExtract(ctx).err.Some? ==> r == Reply([], ContextExtract(ctx).err)
    ensures ContextExtract(ctx).err.None? ==>
              var reply := scheduler(ctx.userID.value);
              (reply.Failure? ==> r == Reply([], Some(InternalError)))
              && (reply.Success? ==> r.err.None? && r.value == ConvertScheduled(reply.value))
  {
    var caller := ContextExtract(ctx);
    if caller.err.Some? then Reply([], caller.err)
    else
      match scheduler(caller.userID.value)
      case Failure(_) => Reply([], Some(InternalError))
      case Success(ts) => Reply(ConvertScheduled(ts), None)
  }

  // ------------------------------------------------------------ GetRunningTasks

  const LastUpdatePrefix: string := "tasks:updates:last-update:"

  /** The scalar key holding a task's last published status. */
  function LastUpdateKey(taskID: string): (k: string)
    ensures |k| == |LastUpdatePrefix| + |taskID| && k[|LastUpdatePrefix|..] == taskID
  {
    LastUpdatePrefix + taskID
  }

  /** The GraphQL task reported for a processing id that is one of the
      caller's tasks: both tokens derive from the id, the status is the last
      published one ("" when the key is absent). */
  function RunningTask(taskID: string, t: TaskRecord, scalars: map<string, string>, hash: string -> string): Task
  {
    Task(taskID, taskID, hash(taskID), t.startTime, Index(scalars, LastUpdateKey(taskID)))
  }

  /** `x` is the id of one of the tasks in `tasks`. */
  predicate Owned(tasks: seq<TaskRecord>, x: string)
  {
    exists t :: t in tasks && t.id == x
  }

  /** `x` is the id of some task in `r`. */
  predicate Listed(r: seq<Task>, x: string)
  {
    exists k :: 0 <= k < |r| && r[k].id == x
  }

  /** How many of the caller's tasks carry the id `x`. */
  function CountOwned(tasks: seq<TaskRecord>, x: string): nat
    decreases |tasks|
  {
    if |tasks| == 0 then 0
    else CountOwned(tasks[..|tasks| - 1], x) + (if tasks[|tasks| - 1].id == x then 1 else 0)
  }

  /** The inner loop over the caller's tasks for one processing id: one
      report per task of the caller carrying the id. */
  function MatchesOf(taskID: string, tasks: seq<TaskRecord>, scalars: map<string, string>, hash: string -> string): (r: seq<Task>)
    ensures |r| == CountOwned(tasks, taskID)
    decreases |tasks|
  {
    if |tasks| == 0 then []
    else
      var t := tasks[|tasks| - 1];
      var r := MatchesOf(taskID, tasks[..|tasks| - 1], scalars, hash);
      if t.id == taskID then r + [RunningTask(taskID, t, scalars, hash)] else r
  }

  /** The inner loop reports one task per task of the caller carrying the id,
      so it reports something exactly when the caller owns the id. */
  lemma {:induction false} MatchesOfExact(taskID: string, tasks: seq<TaskRecord>, scalars: map<string, string>, hash: string -> string)
    ensures var r := MatchesOf(taskID, tasks, scalars, hash);
            forall k :: 0 <= k < |r| ==>
              exists t :: t in tasks && t.id == taskID && r[k] == RunningTask(taskID, t, scalars, hash)
    ensures MatchesOf(taskID, tasks, scalars, hash) != [] <==> Owned(tasks, taskID)
    decreases |tasks|
  {
    if |tasks| > 0 {
      var init := tasks[..|tasks| - 1];
      var t := tasks[|tasks| - 1];
      assert tasks == init + [t];
      MatchesOfExact(taskID, init, scalars, hash);
      var r := MatchesOf(taskID, tasks, scalars, hash);
      var r0 := MatchesOf(taskID, init, scalars, hash);
      forall k | 0 <= k < |r|
        ensures exists u :: u in tasks && u.id == taskID && r[k] == RunningTask(taskID, u, scalars, hash)
      {
        if k < |r0| {
          var u :| u in init && u.id == taskID && r0[k] == RunningTask(taskID, u, scalars, hash);
          assert u in tasks && r[k] == r0[k];
        } else {
          assert t in tasks && r[k] == RunningTask(taskID, t, scalars, hash);
        }
      }
      if Owned(tasks, taskID) && t.id != taskID {
        var u :| u in tasks && u.id == taskID;
        assert u in init;
      }
    }
  }

  /** How many (processing id, caller task) pairs match: the entries of
      `members`, with repeats, weighted by the caller's tasks carrying them. */
  function CountPairs(members: seq<string>, tasks: seq<TaskRecord>): nat
    decreases |members|
  {
    if |members| == 0 then 0
    else CountPairs(members[..|members| - 1], tasks) + CountOwned(tasks, members[|members| - 1])
  }

  /** The nested loops of GetRunningTasks over the processing-set reply and
      the caller's tasks: one report per matching pair, a task whose start
      time is not yet stored being reported with no start time. */
  function RunningTasks(members: seq<string>, tasks: seq<TaskRecord>, scalars: map<string, string>, hash: string -> string): (r: seq<Task>)
    ensures |r| == CountPairs(members, tasks)
    decreases |members|
  {
    if |members| == 0 then []
    else
      RunningTasks(members[..|members| - 1], tasks, scalars, hash)
      + MatchesOf(members[|members| - 1], tasks, scalars, hash)
  }

  /** An id is listed in a concatenation exactly when it is listed in a part. */
  lemma ListedConcat(r0: seq<Task>, m: seq<Task>, y: string)
    ensures Listed(r0 + m, y) <==> Listed(r0, y) || Listed(m, y)
  {
    var r := r0 + m;
    if Listed(r, y) {
      var k :| 0 <= k < |r| && r[k].id == y;
      if k >= |r0| { assert m[k - |r0|].id == y; } else { assert r0[k].id == y; }
    }
    if Listed(r0, y) {
      var k :| 0 <= k < |r0| && r0[k].id == y;
      assert r[k].id == y;
    }
    if Listed(m, y) {
      var k :| 0 <= k < |m| && m[k].id == y;
      assert r[|r0| + k].id == y;
    }
  }

  /** The inner loop for `x` lists `x` exactly when the caller owns it, and nothing else. */
  lemma MatchesOfListed(x: string, tasks: seq<TaskRecord>, scalars: map<string, string>, hash: string -> string, y: string)
    ensures Listed(MatchesOf(x, tasks, scalars, hash), y) <==> y == x && Owned(tasks, x)
  {
    var m := MatchesOf(x, tasks, scalars, hash);
    MatchesOfExact(x, tasks, scalars, hash);
    if y == x && Owned(tasks, x) {
      var t :| t in tasks && t.id == x && m[0] == RunningTask(x, t, scalars, hash);
      assert m[0].id == x;
    }
    if Listed(m, y) {
      var k :| 0 <= k < |m| && m[k].id == y;
      var t :| t in tasks && t.id == x && m[k] == RunningTask(x, t, scalars, hash);
    }
  }

  /** Every processing id the caller owns is reported, and no other id. */
  lemma {:induction false} RunningTasksExact(members: seq<string>, tasks: seq<TaskRecord>, scalars: map<string, string>, hash: string -> string)
    ensures forall x :: Listed(RunningTasks(members, tasks, scalars, hash), x) <==> x in members && Owned(tasks, x)
    decreases |members|
  {
    if |members| > 0 {
      var init := members[..|members| - 1];
      var x := members[|members| - 1];
      assert members == init + [x];
      RunningTasksExact(init, tasks, scalars, hash);
      forall y ensures Listed(RunningTasks(members, tasks, scalars, hash), y) <==> y in members && Owned(tasks, y) {
        ListedConcat(RunningTasks(init, tasks, scalars, hash), MatchesOf(x, tasks, scalars, hash), y);
        MatchesOfListed(x, tasks, scalars, hash, y);
      }
    }
  }

  /** A report for a processing id owned by the caller, carrying
      subscription token = id, control token = hash(id), the id's last
      published status and the start time of the caller's task. */
  predicate WellReported(r: Task, members: seq<string>, tasks: seq<TaskRecord>, scalars: map<string, string>, hash: string -> string)
  {
    && r.id in members
    && (exists t :: t in tasks && t.id == r.id && r.startTime == t.startTime)
    && r.subscriptionToken == r.id && r.controlToken == hash(r.id)
    && r.status == Index(scalars, LastUpdateKey(r.id))
  }

  /** Every report of the nested loops is well formed. */
  lemma {:induction false} RunningTasksReports(members: seq<string>, tasks: seq<TaskRecord>, scalars: map<string, string>, hash: string -> string)
    ensures forall k :: 0 <= k < |RunningTasks(members, tasks, scalars, hash)| ==>
              WellReported(RunningTasks(members, tasks, scalars, hash)[k], members, tasks, scalars, hash)
    decreases |members|
  {
    if |members| > 0 {
      var init := members[..|members| - 1];
      var x := members[|members| - 1];
      assert members == init + [x];
      RunningTasksReports(init, tasks, scalars, hash);
      MatchesOfExact(x, tasks, scalars, hash);
      var r0 := RunningTasks(init, tasks, scalars, hash);
      var m := MatchesOf(x, tasks, scalars, hash);
      var r := r0 + m;
      assert r == RunningTasks(members, tasks, scalars, hash);
      forall k | 0 <= k < |r| ensures WellReported(r[k], members, tasks, scalars, hash) {
        if k >= |r0| {
          var t :| t in tasks && t.id == x && m[k - |r0|] == RunningTask(x, t, scalars, hash);
          assert r[k] == RunningTask(x, t, scalars, hash);
        } else {
          assert WellReported(r0[k], init, tasks, scalars, hash);
          assert r[k] == r0[k];
        }
      }
    }
  }

  /** The result follows the order of the processing-set reply: the reports
      for one part of the reply precede those for the next. */
  lemma {:induction false} RunningTasksConcat(a: seq<string>, b: seq<string>, tasks: seq<TaskRecord>, scalars: map<string, string>, hash: string -> string)
    ensures RunningTasks(a + b, tasks, scalars, hash) == RunningTasks(a, tasks, scalars, hash) + RunningTasks(b, tasks, scalars, hash)
    decreases |b|
  {
    if |b| == 0 {
      assert a + b == a;
    } else {
      var b' := b[..|b| - 1];
      assert (a + b)[..|a + b| - 1] == a + b';
      var x := b[|b| - 1];
      assert (a + b)[|a + b| - 1] == x;
      RunningTasksConcat(a, b', tasks, scalars, hash);
      var m := MatchesOf(x, tasks, scalars, hash);
      var ra, rb' := RunningTasks(a, tasks, scalars, hash), RunningTasks(b', tasks, scalars, hash);
      assert RunningTasks(a + b, tasks, scalars, hash) == (ra + rb') + m;
      assert RunningTasks(b, tasks, scalars, hash) == rb' + m;
      assert (ra + rb') + m == ra + (rb' + m);
    }
  }

  /** The nested loops as written: the start time is dereferenced, so a
      matched task whose start time is not stored makes the resolver panic
      (None). Otherwise the result is the corrected one. */
  function RunningTasksAsWritten(members: seq<string>, tasks: seq<TaskRecord>, scalars: map<string, string>, hash: string -> string): (r: Option<seq<Task>>)
    ensures r.None? <==> exists k :: 0 <= k < |members| && Unstarted(members[k], tasks)
    ensures r.Some? ==> r.value == RunningTasks(members, tasks, scalars, hash)
    decreases |members|
  {
    if |members| == 0 then Some([])
    else
      var init := members[..|members| - 1];
      var x := members[|members| - 1];
      match RunningTasksAsWritten(init, tasks, scalars, hash)
      case None => None
      case Some(r) =>
        if Unstarted(x, tasks) then None else Some(r + MatchesOf(x, tasks, scalars, hash))
  }

  /** Some task of the caller with id `x` has no start time yet. */
  predicate Unstarted(x: string, tasks: seq<TaskRecord>)
  {
    exists t :: t in tasks && t.id == x && t.startTime.None?
  }

  /** A task that is already processing but whose start time is still
      unwritten (StartTasks writes it five seconds late) makes the as-written
      loops panic; the corrected loops report it with no start time. */
  lemma UnstartedRunningTaskPanics(scalars: map<string, string>, hash: string -> string)
    ensures RunningTasksAsWritten(["t1"], [TaskRecord("t1", "siteA", None)], scalars, hash).None?
    ensures RunningTasks(["t1"], [TaskRecord("t1", "siteA", None)], scalars, hash)
            == [Task("t1", "t1", hash("t1"), None, Index(scalars, LastUpdateKey("t1")))]
  {
  }

  /** GetRunningTasks: after the caller check, loads the caller's tasks
      (through their app's task groups; a store error while loading the
      caller or their app is wrapped by EntErr)
      and reports the processing ids among them. `members` is the reply of
      SMembers("tasks:processing"), empty when that query fails. */
  function GetRunningTasks(
    ctx: Context,
    userTasks: string -> Result<seq<TaskRecord>, Error>,
    members: seq<string>,
    scalars: map<string, string>,
    hash: string -> string): (r: Reply<seq<Task>>)
    ensures ContextExtract(ctx).err.Some? ==> r == Reply([], ContextExtract(ctx).err)
    ensures ContextExtract(ctx).err.None? ==>
              var reply := userTasks(ctx.userID.value);
              (reply.Failure? ==> r == Reply([], Some(Ent(reply.error))))
              && (reply.Success? ==> r.err.None? && r.value == RunningTasks(members, reply.value, scalars, hash))
  {
    var caller := ContextExtract(ctx);
    if caller.err.Some? then Reply([], caller.err)
    else
      match userTasks(caller.userID.value)
      case Failure(e) => Reply([], Some(Ent(e)))
      case Success(tasks) => Reply(RunningTasks(members, tasks, scalars, hash), None)
  }

  // --------------------------------------------------------------- TaskUpdates

  const UpdatesPrefix: string := "tasks:updates:"

  /** The channel a subscription token's updates are published on. */
  function ChannelName(token: string): (c: string)
    ensures |c| == |UpdatesPrefix| + |token| && c[|UpdatesPrefix|..] == token
  {
    UpdatesPrefix + token
  }

  /** The channel-name loop of TaskUpdates: one name per token, in token order. */
  function ChannelNames(tokens: seq<string>): (r: seq<string>)
    ensures |r| == |tokens|
    ensures forall i :: 0 <= i < |tokens| ==> r[i] == ChannelName(tokens[i])
    decreases |tokens|
  {
    if |tokens| == 0 then []
    else ChannelNames(tokens[..|tokens| - 1]) + [ChannelName(tokens[|tokens| - 1])]
  }

  /** Strips the `tasks:updates:` prefix; any other string is returned
      unchanged. */
  function TokenOf(channel: string): string
  {
    if |channel| >= |UpdatesPrefix| && channel[..|UpdatesPrefix|] == UpdatesPrefix
    then channel[|UpdatesPrefix|..] else channel
  }

  /** The token can be read back from its channel name. */
  lemma ChannelNameRoundTrip(token: string)
    ensures TokenOf(ChannelName(token)) == token
  {
  }

  /** Distinct token lists subscribe to distinct channel lists: no two tokens
      share a channel. */
  lemma ChannelNamesInjective(a: seq<string>, b: seq<string>)
    ensures ChannelNames(a) == ChannelNames(b) ==> a == b
  {
  }

  /** The subscription TaskUpdates opens. The resolver does not consult the
      caller: the context only bounds the subscription's lifetime. */
  function TaskUpdates(ctx: Context, tokens: seq<string>): (channels: seq<string>)
    ensures |channels| == |tokens|
    ensures forall i :: 0 <= i < |tokens| ==> channels[i] == ChannelName(tokens[i])
    ensures forall i :: 0 <= i < |tokens| ==> TokenOf(channels[i]) == tokens[i]
  {
    var r := ChannelNames(tokens);
    forall i | 0 <= i < |tokens| ensures TokenOf(r[i]) == tokens[i] {
      ChannelNameRoundTrip(tokens[i]);
    }
    r
  }

  // -------------------------------------------------------- the caller check

  /** Every resolver that checks the caller returns the extraction error
      unchanged, with an empty or false value and no effect, whatever its
      collaborators would have answered. */
  lemma CallerCheckShortCircuits(
    ctx: Context, ids: seq<string>, store: BatchStart.Store, now: int, exec: Option<Error>,
    controlToken: string, command: string, publishErr: Option<Error>,
    scheduler: string -> Result<seq<ScheduledTask>, Error>,
    userTasks: string -> Result<seq<TaskRecord>, Error>,
    members: seq<string>, scalars: map<string, string>, hash: string -> string)
    requires ctx.error.Some? || ctx.userID.None?
    ensures var err := Some(if ctx.error.Some? then ctx.error.value else UserNotFound);
            && SendCommand(ctx, controlToken, command, publishErr) == SendOutcome(Reply(false, err), None)
            && BatchStart.StartTasks(ctx, ids, store, now, exec) == BatchStart.Outcome(Reply(false, err), store, [])
            && GetScheduledTasks(ctx, scheduler) == Reply([], err)
            && GetRunningTasks(ctx, userTasks, members, scalars, hash) == Reply([], err)
  {
  }
}

=== FILE: update_handler.dfy ===
/** Translation of the status messages published on "tasks:updates:<token>"
    into the client-facing `TaskStatus`, and the per-message step of the
    update stream (parse, then translate or drop). */
module UpdateHandler {
  import opened Wrappers
  import opened Domain

  /** Information keys that are internal to the publisher and never reach clients. */
  const TaskIDKey: string := "taskID"
  const StoppedFromCmdKey: string := "stoppedFromCMD"

  /** The wire message `module.Status`: a numeric status code, an error
      string and a free-form information map. */
  datatype WireStatus = WireStatus(status: int, error: string, information: map<string, string>)

  /** The client-facing `model.TaskStatus`. */
  datatype TaskStatus = TaskStatus(
    taskID: string,
    status: string,
    error: string,
    information: map<string, string>)

  /** convertUpdate: lifts "taskID" into its own field, names the status code
      through the label table (`STATUS_name`) and copies every other
      information entry except the two reserved keys. */
  function ConvertUpdate(w: WireStatus, labels: map<int, string>): (r: TaskStatus)
    ensures TaskIDKey !in r.information && StoppedFromCmdKey !in r.information
    ensures r.information.Keys == w.information.Keys - {TaskIDKey, StoppedFromCmdKey}
    ensures forall k :: k in w.information && k != TaskIDKey && k != StoppedFromCmdKey ==>
              k in r.information && r.information[k] == w.information[k]
    ensures TaskIDKey in w.information ==> r.taskID == w.information[TaskIDKey]
    ensures TaskIDKey !in w.information ==> r.taskID == ""
    ensures w.status in labels ==> r.status == labels[w.status]
    ensures w.status !in labels ==> r.status == ""
    ensures r.error == w.error
  {
    TaskStatus(
      Index(w.information, TaskIDKey),
      Index(labels, w.status),
      w.error,
      map k | k in w.information && k != TaskIDKey && k != StoppedFromCmdKey :: w.information[k])
  }

  /** Putting the reserved entries back gives the input information map:
      translation loses nothing but the two reserved keys. */
  lemma RedactionRoundTrip(w: WireStatus, labels: map<int, string>)
    ensures var reserved := map k | k in w.information && (k == TaskIDKey || k == StoppedFromCmdKey) :: w.information[k];
            ConvertUpdate(w, labels).information + reserved == w.information
  {
  }

  /** A translation example: the reserved keys go, "proxy" stays. */
  lemma TranslationExample(labels: map<int, string>)
    requires 2 in labels
    ensures ConvertUpdate(
              WireStatus(2, "", map["taskID" := "t9", "stoppedFromCMD" := "true", "proxy" := "1.2.3.4"]),
              labels)
            == TaskStatus("t9", labels[2], "", map["proxy" := "1.2.3.4"])
  {
  }

  /** What unmarshalling a payload into a `*module.Status` yields: a decode
      error, a nil pointer (the JSON literal `null`), or a decoded message. */
  datatype ParseOutcome = Malformed(reason: string) | Null | Decoded(wire: WireStatus)

  /** What one run of processUpdate does to the output stream. */
  datatype Delivery = Emitted(updates: seq<TaskStatus>) | Panicked

  /** processUpdate as written: a decode error drops the message, otherwise
      convertUpdate is applied to the decoded pointer, nil or not. */
  function ProcessUpdateAsWritten(payload: string, parse: string -> ParseOutcome, labels: map<int, string>): (r: Delivery)
    ensures r.Panicked? <==> parse(payload).Null?
    ensures parse(payload).Malformed? ==> r == Emitted([])
    ensures parse(payload).Decoded? ==> r == Emitted([ConvertUpdate(parse(payload).wire, labels)])
  {
    match parse(payload)
    case Malformed(_) => Emitted([])
    case Null => Panicked
    case Decoded(w) => Emitted([ConvertUpdate(w, labels)])
  }

  /** The payload `null` decodes without error into a nil pointer, which
      convertUpdate dereferences: the goroutine running it panics. */
  lemma NullPayloadPanics(parse: string -> ParseOutcome, labels: map<int, string>)
    requires parse("null") == Null
    ensures ProcessUpdateAsWritten("null", parse, labels) == Panicked
  {
  }

  /** processUpdate as evidently intended: whatever does not decode into a
      message (a decode error or a nil message) is dropped; a decoded message
      is emitted as exactly one translated update. */
  function ProcessUpdate(payload: string, parse: string -> ParseOutcome, labels: map<int, string>): (r: seq<TaskStatus>)
    ensures |r| <= 1
    ensures r == [] <==> !parse(payload).Decoded?
    ensures parse(payload).Decoded? ==> r == [ConvertUpdate(parse(payload).wire, labels)]
  {
    match parse(payload)
    case Decoded(w) => [ConvertUpdate(w, labels)]
    case _ => []
  }

  /** The intended step agrees with the source on every payload that does not
      decode to nil, and never takes the stream down. */
  lemma ProcessUpdateAgreesExceptNull(payload: string, parse: string -> ParseOutcome, labels: map<int, string>)
    ensures !parse(payload).Null? ==> ProcessUpdateAsWritten(payload, parse, labels) == Emitted(ProcessUpdate(payload, parse, labels))
    ensures parse(payload).Null? ==> ProcessUpdate(payload, parse, labels) == []
  {
  }
}

=== FILE: wrappers.dfy ===
/** Failure-carrying datatypes used to stand for Go's nil-able values and
    (value, error) pairs returned by the collaborators of the resolvers. */
module Wrappers {

  /** A value that may be absent (a nil pointer or interface in the source). */
  datatype Option<+T> = None | Some(value: T)

  /** The outcome of a call into a collaborator: a value or the error it returned. */
  datatype Result<+T, +E> = Success(value: T) | Failure(error: E)
}
